=== FILE: README.md ===
# Phone-number sign-up, sign-in and session gate — a Dafny model

This project models the logic of the three pages of a small React client.
Users create accounts and sign in with a Moroccan mobile number (shown with the `+212` prefix).
Account storage and sessions are delegated to an identity provider (Supabase).

- **Registration** (`pages/Register.tsx`):
  - the page draws a four-digit challenge code and shows it;
  - on submit it checks, in order, the username (non-blank after `trim`), the phone number (`/^[67]\d{8}$/`), the password length (at least 8) and the typed code (equal to the shown one);
  - only then does it call the provider's `signUp`;
  - a code mismatch or a provider failure draws a new code.
- **Sign-in** (`pages/Login.tsx`): no local checks at all.
  - Every submit calls `signInWithPassword`.
  - Every failure shows one generic message.
- **Dashboard** (`pages/Dashboard.tsx`):
  - on mount it asks the provider for the current user and redirects to `/login-page` when there is none;
  - it shows only a spinner until that check completes;
  - it displays the account number from the user's metadata, falling back to the email's local part;
  - it signs out and then redirects.

## How the model is built

- Each page is an immutable `State` record. Its event handlers are pure functions returning `Step(state, effects)`.
  - `effects` lists the provider calls (`SignUp`, `SignIn`, `GetUser`, `SignOut`) and the navigations (`Navigate(path)`) in the order the handler performs them.
- Each submit handler is split at its single `await`:
  - `Begin` runs up to the provider call;
  - `Resolve` runs the rest once the call has settled with an `Outcome` (`Ok` or `Err(message?)`);
  - `Submit` runs the whole handler as one atomic step;
  - `Press` is the submit button with its `disabled={loading}` guard.
  - For registration, `Run` applies a whole session of user events and settlements. `SingleFlight` proves that the guard keeps at most one sign-up in flight.
- `formatEmail`, the mapping from phone number to provider identity, is not part of this model (it lives in `lib/supabase`). Every operation that uses it takes it as a parameter `formatEmail: string -> string`, and nothing is assumed about it: not injectivity, not a format.
- `Math.random()` is a parameter `r: Draw` with `0 <= r < 1`. The code value, the floor of 1000 + 9000·r, is computed in exact real arithmetic.
- The JavaScript string operations the pages use are written out for Dafny strings (sequences of Unicode scalar values):
  - the `\D` filter keeps ASCII digits only;
  - `trim` removes the ECMAScript WhiteSpace and LineTerminator characters;
  - `.length` counts UTF-16 code units;
  - `split('@')[0]` keeps the text before the first `@`.

Three properties of the code are easy to miss:

- `handleLogin` (pages/Login.tsx:22-41) does no local validation. Whatever the phone and password fields hold, even nothing, the provider is asked to sign in: `Login.NoLocalValidation`.
- A failed username, phone or password check leaves the displayed code alone. Only a code mismatch (pages/Register.tsx:58-62) or a provider failure (pages/Register.tsx:84) draws a new one: `Register.SubmitFieldFailureFrame`, `Register.SubmitMismatchFrame`.
- `formatEmail` is not assumed injective. Both pages send `formatEmail(phone)` as the identity (`Register.SignUpCall`, `Login.SignInCall`), so a sign-in with the registered phone and password sends the same email and password as the sign-up did. `Accounts.SameIdentity` states this corollary.

## Model

| member | source | states |
|---|---|---|
| Text.KeepDigits | pages/Register.tsx:136 | the filtered phone/code value holds only ASCII digits, is no longer than the input, and is a sub-multiset of it |
| Text.KeepDigitsOfDigits | pages/Register.tsx:209 | a value that is already all digits passes through the filter unchanged |
| Text.KeepDigitsIdempotent | pages/Login.tsx:72 | filtering an already filtered value changes nothing |
| Text.KeepDigitsAppend | pages/Register.tsx:136 | the filter acts character by character: it distributes over concatenation |
| Text.KeepDigitsCounts | pages/Register.tsx:209 | every digit survives with its multiplicity and no non-digit survives |
| Text.TrimStart | pages/Register.tsx:43 | leading white space removal: a suffix of the input not starting with white space, everything cut off being white space |
| Text.TrimEnd | pages/Register.tsx:43 | trailing white space removal: a prefix not ending with white space, everything cut off being white space |
| Text.Trim | pages/Register.tsx:43 | `trim()` leaves text that neither starts nor ends with white space, and leaves nothing exactly when the input is all white space; `Text.TrimUnique` pins down which text that is |
| Text.TrimStartUnique | pages/Register.tsx:43 | a suffix that follows only white space and does not start with white space is what leading-space removal leaves |
| Text.TrimEndUnique | pages/Register.tsx:43 | a prefix that is followed only by white space and does not end with white space is what trailing-space removal leaves |
| Text.TrimUnique | pages/Register.tsx:43 | `trim()` returns exactly the part of the input between its leading and its trailing white space |
| Text.Utf16Length | pages/Register.tsx:53 | `.length` in UTF-16 code units lies between the character count and twice it; `Text.Utf16LengthOfChar` and `Text.Utf16LengthAppend` give the exact count |
| Text.Utf16LengthOfBmp | pages/Register.tsx:53 | for text inside the Basic Multilingual Plane `.length` equals the character count |
| Text.Utf16LengthOfChar | pages/Register.tsx:53 | one character is one UTF-16 code unit, or two outside the Basic Multilingual Plane |
| Text.Utf16LengthAppend | pages/Register.tsx:53 | `.length` adds up over concatenation, so with the per-character count it fixes `.length` of every string |
| Text.BeforeFirst | pages/Dashboard.tsx:51 | `split('@')[0]` is a prefix without '@' that is either the whole string or stops right before an '@' |
| Text.BeforeFirstUnique | pages/Dashboard.tsx:51 | those three properties determine the result uniquely |
| Text.BeforeFirstOfJoin | pages/Dashboard.tsx:51 | splitting `local@rest` at the first '@' yields `local` |
| Decimal.ToDecimal | pages/Register.tsx:27 | `toString()` of an integer in [0, 10^21), where JavaScript writes plain digits (the page only converts 1000..9999), is a non-empty digit string whose leading '0' occurs only for zero |
| Decimal.ParseToDecimal | pages/Register.tsx:27 | reading back the decimal text of a number gives the number |
| Decimal.ToDecimalInjective | pages/Register.tsx:27 | different code values have different code texts |
| Decimal.ToDecimalParse | pages/Register.tsx:27 | writing out the value of a digit string with no superfluous leading zero gives the same string |
| Decimal.ToDecimalLength | pages/Register.tsx:27 | numbers in [10^k, 10^(k+1)) have exactly k+1 digits |
| Otp.CodeValue | pages/Register.tsx:27 | the floor of 1000 + 9000·r for r in [0, 1) lies in [1000, 9999] |
| Otp.CodeValueOnto | pages/Register.tsx:27 | every value in [1000, 9999] is produced by some draw |
| Otp.Generate | pages/Register.tsx:26-29 | a generated code is four digits with no leading zero whose value is the drawn number |
| Otp.GenerateOnto | pages/Register.tsx:26-29 | every four-digit string without a leading zero is generated by some draw |
| Validation.MatchAllIff | pages/Register.tsx:36 | an anchored single-class pattern matches exactly the strings of its length whose characters lie in the classes position by position |
| Validation.PhonePatternIff | pages/Register.tsx:36 | `/^[67]\d{8}$/` matches exactly the nine-character strings starting with 6 or 7 whose other eight characters are ASCII digits |
| Validation.ValidatePhone | pages/Register.tsx:35-37 | `validatePhone` holds exactly for nine-character strings starting with 6 or 7 whose other eight characters are ASCII digits |
| Validation.ValidPhoneIsDigits | pages/Register.tsx:35-37 | an accepted phone number is nine digits |
| Validation.PhoneAccepted | pages/Register.tsx:35-37 | "612345678" and "799999999" are accepted |
| Validation.PhoneRejected | pages/Register.tsx:35-37 | "512345678", the 8-digit "61234567" and the 10-digit "6123456789" are rejected |
| Validation.UsernameMissing | pages/Register.tsx:43 | the username check fails exactly for all-white-space usernames, including the empty one |
| Validation.PasswordTooShort | pages/Register.tsx:53 | eight characters always pass, fewer than four never do, and in the Basic Multilingual Plane the check is exactly "fewer than 8 characters"; `Text.Utf16LengthOfChar` and `Text.Utf16LengthAppend` decide every other password |
| Validation.PasswordAstral | pages/Register.tsx:53 | the check counts code units: four characters outside the Basic Multilingual Plane pass, three of them and a letter do not |
| Register.Mount | pages/Register.tsx:14-33 | after mounting the fields are empty, no error shows, nothing is loading and a valid code is displayed |
| Register.EditUsername | pages/Register.tsx:116 | the username field holds exactly what was typed and no other field changes |
| Register.EditPassword | pages/Register.tsx:158 | the password field holds exactly what was typed and no other field changes |
| Register.EditReferral | pages/Register.tsx:190 | the referral field holds exactly what was typed and no other field changes |
| Register.EditPhone | pages/Register.tsx:136 | the phone field holds the typed value with every non-digit removed, so only digits, equals a typed all-digit value, and no other field changes |
| Register.EditUserOtp | pages/Register.tsx:209 | the typed-code field holds the typed value with every non-digit removed, so only digits, equals a typed all-digit value, and no other field changes |
| Register.RefreshCode | pages/Register.tsx:212-214 | a click on the code tile displays a fresh valid code and changes nothing else |
| Register.SignUpCall | pages/Register.tsx:67-78 | the sign-up request carries formatEmail(phone), the password, the username and the phone, and the referral code, which is null exactly when the field is empty |
| Register.ProviderError | pages/Register.tsx:83 | the provider's message is shown exactly when it is present and non-empty; otherwise the general error |
| Register.Begin | pages/Register.tsx:39-65 | the error is cleared first; the provider is called, once, exactly when no local check fails, and while that call is in flight the state is the old one with loading raised and no error (code and typed code kept); otherwise the first failing check's error is set and loading is untouched |
| Register.Resolve | pages/Register.tsx:66-87 | after the call loading is false; success navigates to /dashboard; failure shows the provider error; form and typed code are kept |
| Register.Press | pages/Register.tsx:228-230 | a submit while loading does nothing |
| Register.Submit | pages/Register.tsx:39-88 | the sign-up is sent exactly when not loading and all four checks pass, loading ends false, and the form never changes |
| Register.SubmitCheckOrder | pages/Register.tsx:43-63 | username, then phone, then password, then code: the first failing check alone decides the error |
| Register.SubmitFieldFailureFrame | pages/Register.tsx:43-56 | on a username, phone or password failure nothing is sent and only the error changes; the code and typed code stay |
| Register.SubmitMismatchFrame | pages/Register.tsx:58-62 | on a code mismatch nothing is sent, the code is redrawn, the typed code is cleared, and nothing else changes |
| Register.MismatchMayRedrawSameCode | pages/Register.tsx:58-62 | the redrawn code is not guaranteed to differ from the old one |
| Register.SubmitProviderCall | pages/Register.tsx:65-87 | with all checks passing the request carries formatEmail(phone), the password and {username, phone, referral or null}; success navigates with no error; failure shows the provider error and redraws the code but keeps the typed code |
| Register.EditsKeepValid | pages/Register.tsx:116-214 | field edits and the code tile keep digit-only fields and a valid code |
| Register.SubmitKeepsValid | pages/Register.tsx:39-88 | submitting keeps digit-only fields and a valid code |
| Register.Apply | pages/Register.tsx:39-230 | an event has at most one effect, a sign-up or the navigation to /dashboard; typing and the code tile have no effects and leave loading alone; a submit while loading and a settlement with no call outstanding do nothing |
| Register.Run | pages/Register.tsx:39-230 | a session has at most one effect per event, each a sign-up or the navigation to /dashboard |
| Register.ApplyCallsIffRaised | pages/Register.tsx:65-86 | an event calls the provider exactly when it raises loading and lowers loading exactly when it settles the outstanding call |
| Register.SingleFlight | pages/Register.tsx:228-230 | over any session, calls made plus one if a call was outstanding at the start equal settlements plus one if a call is outstanding at the end, so at most one sign-up is ever in flight |
| Register.ApplyKeepsValid | pages/Register.tsx:116-214 | no single event breaks the field invariant |
| Register.RunKeepsValid | pages/Register.tsx:116-214 | no session of events breaks the field invariant |
| Login.Mount | pages/Login.tsx:14-20 | the page starts with empty phone and password fields, no error and not loading |
| Login.EditPhone | pages/Login.tsx:72 | the phone field holds the typed value with every non-digit removed, so only digits, equals a typed all-digit value, and nothing else changes |
| Login.EditPassword | pages/Login.tsx:93 | the password field holds exactly what was typed and nothing else changes |
| Login.SignInCall | pages/Login.tsx:28-32 | the sign-in request carries formatEmail(phone) and the password |
| Login.Begin | pages/Login.tsx:22-32 | every submit clears the error and raises loading before calling the provider, with the form unchanged |
| Login.Resolve | pages/Login.tsx:33-40 | loading ends false; success navigates to /dashboard and keeps the error; failure sets the generic error and does not navigate |
| Login.Press | pages/Login.tsx:114-116 | a submit while loading does nothing |
| Login.Submit | pages/Login.tsx:22-41 | exactly one sign-in call is made when not loading, loading ends false, and the form never changes |
| Login.NoLocalValidation | pages/Login.tsx:27-32 | whatever the phone and password hold, even empty, the provider is asked to sign in with formatEmail(phone) and the password |
| Login.SubmitErrorIff | pages/Login.tsx:34-37 | the error is cleared exactly when the sign-in succeeds, is the generic error otherwise, and navigation happens exactly on success |
| Login.ProviderMessageHidden | pages/Login.tsx:36-37 | two failures with different provider messages leave identical states and effects |
| Login.SubmitKeepsValid | pages/Login.tsx:72 | edits and submits keep the phone field digit-only |
| Dashboard.Mount | pages/Dashboard.tsx:13-18 | the page starts loading with no user and asks the provider for the user |
| Dashboard.CheckAuth | pages/Dashboard.tsx:16-27 | without a user: navigate to /login-page and leave the user unset; with one: store it and do not navigate; loading ends false in both cases; a failed `getUser` (rejected, or no `data`) is not caught, so loading stays true and nothing navigates |
| Dashboard.SignOutEffects | pages/Dashboard.tsx:29-32 | sign-out is called first; a resolved sign-out is followed by the navigation to /login-page and nothing else, a rejected one by nothing |
| Dashboard.SignOutBeforeLeaving | pages/Dashboard.tsx:29-32 | sign-out is the one provider call, any navigation comes after it, and the page ends on /login-page exactly when the sign-out resolved |
| Dashboard.AccountLabel | pages/Dashboard.tsx:51 | a non-empty metadata phone number is shown when present; a user with neither a usable phone number nor an email gets no label; a label exists only when there is a user |
| Dashboard.AccountLine | pages/Dashboard.tsx:51 | the account line is "+212 " followed by the label, or by nothing when there is none |
| Dashboard.AccountLabelFromEmail | pages/Dashboard.tsx:51 | without a phone number the label is the email's prefix before its first '@', and the whole email exactly when it has no '@' |
| Dashboard.AccountLabelOfAddress | pages/Dashboard.tsx:51 | for `local@rest` the label is `local` |
| Dashboard.Render | pages/Dashboard.tsx:34-40 | the spinner is rendered exactly while loading |
| Dashboard.SessionGate | pages/Dashboard.tsx:16-40 | before the check only the spinner shows; after it the login page shows with no user stored when there is no session, the account of that user when there is one, and the spinner still after a failed lookup |
| Dashboard.NoProtectedContentWithoutUser | pages/Dashboard.tsx:34-40 | protected content is never on screen without a stored user, whichever way the check settles |
| Dashboard.RenderGuardAloneWithoutUser | pages/Dashboard.tsx:34-51 | the render guard checks only loading: after a check that found no user the component itself would render the page with an empty label, and the redirect is what keeps it off screen |
| Accounts.SameIdentity | pages/Login.tsx:27-32 | a corollary of the two request builders: since both send formatEmail(phone), a sign-in with the phone and password used at registration sends the same email and password as the sign-up, for any formatEmail |

## Left out

- The identity provider's operations (`signUp`, `signInWithPassword`, `getUser`, `signOut`) are foreign calls. The model records them as effects and takes their results as parameters.
- `formatEmail` lives in `lib/supabase`, which is not part of this model. It is an arbitrary function parameter, so any exception it might throw is not modelled.
- `Math.random` and floating-point rounding are left out: the draw is an exact real in [0, 1).
- Asynchrony and React state scheduling are left out: each handler phase is one atomic step, and batched `setState` calls are applied in program order.
- Translation strings and language switching are left out. Messages are the translation keys (`ErrorUsername` for `t.error_username`, and so on).
- JSX markup, styling, the password visibility toggle, `components/AuthLayout.tsx`, `App.tsx` (a route table) and `types.ts` (declarations the pages do not use) are presentation or unused.
- Unpaired UTF-16 surrogates: a Dafny string holds Unicode scalar values, so text with a lone surrogate, which a JavaScript string can hold, is not modelled. `Text.Utf16Length` counts two units for each character outside the Basic Multilingual Plane.
- Browser-enforced input attributes (`maxLength`, `required`, `minLength`) are enforced by the browser, not by this code.
- Dashboard.AccountLabel: `phone_number` is modelled as an optional string. Other JSON values the metadata could hold (numbers, objects) are not modelled, because the registration page only ever stores a string there.
- Decimal.ToDecimal: models `toString()` only for integers below 10^21. Larger numbers are written in exponent form by JavaScript and lose precision above 2^53; the page only converts 1000..9999.
- Register.Mount: the model starts from the state after the mount effect has drawn the first code. The first render, which shows an empty code, is left out.

=== FILE: accounts.dfy ===
/** How the two forms meet at the provider: the identity a sign-in asks for
    is the identity the registration created, for the same phone number. */
module Accounts {
  import opened Auth
  import Register
  import Login
  import Otp

  /** A corollary of `Register.SignUpCall` and `Login.SignInCall`, which both
      send `formatEmail(phone)`: whatever `formatEmail` does, a registration
      and a later sign-in with the same phone number and password send the
      provider the same email and password. Nothing is assumed about
      `formatEmail`, so two different phone numbers may still map to one
      identity. */
  lemma SameIdentity(r: Register.State, l: Login.State, formatEmail: string -> string,
                     up: Outcome, draw: Otp.Draw, inn: Outcome)
    requires !r.loading && !l.loading
    requires Register.Failures(r.form, r.otp, r.userOtp) == []
    requires l.form == Login.Form(r.form.phone, r.form.password)
    ensures var signUp := ProviderCalls(Register.Submit(r, formatEmail, up, draw).effects)[0];
      var signIn := ProviderCalls(Login.Submit(l, formatEmail, inn).effects)[0];
      signUp.SignUp? && signIn.SignIn? && signUp.email == signIn.email && signUp.password == signIn.password
  {
  }
}

=== FILE: auth.dfy ===
/** What the pages exchange with the outside world: the identity provider's
    operations, navigation, and the messages shown to the user. */
module Auth {
  import opened Wrappers

  const DashboardPath: string := "/dashboard"
  const LoginPath: string := "/login-page"

  /** The error texts a page can display: the translation keys by name, or a
      message that came from the provider. */
  datatype Message =
    | ErrorUsername
    | ErrorPhone
    | ErrorPassword
    | ErrorOtp
    | ErrorGeneral
    | ErrorLogin
    | ProviderText(text: string)

  /** The settled result of an awaited provider call: success, or a thrown
      or returned error whose `message` may be absent. */
  datatype Outcome = Ok | Err(message: Option<string>)

  /** `options.data` of a sign-up: the account's profile metadata. */
  datatype Metadata = Metadata(username: string, phoneNumber: string, referralCode: Option<string>)

  /** An observable action of a page: a call into the provider or a navigation. */
  datatype Effect =
    | SignUp(email: string, password: string, data: Metadata)
    | SignIn(email: string, password: string)
    | GetUser
    | SignOut
    | Navigate(path: string)

  /** The calls into the provider among a page's effects, in order. */
  function ProviderCalls(effects: seq<Effect>): (calls: seq<Effect>)
    ensures |calls| <= |effects|
    ensures forall e :: e in calls ==> e in effects && !e.Navigate?
  {
    if effects == [] then []
    else (if effects[0].Navigate? then [] else [effects[0]]) + ProviderCalls(effects[1..])
  }

  /** Picking out the provider calls commutes with concatenation. */
  lemma {:induction false} ProviderCallsAppend(a: seq<Effect>, b: seq<Effect>)
    ensures ProviderCalls(a + b) == ProviderCalls(a) + ProviderCalls(b)
  {
    if a != [] {
      assert (a + b)[1..] == a[1..] + b;
      ProviderCallsAppend(a[1..], b);
    } else {
      assert a + b == b;
    }
  }

  /** The state a page is left in by one event, and what it did on the way. */
  datatype Step<S> = Step(state: S, effects: seq<Effect>)
}

=== FILE: dashboard.dfy ===
/** The protected page (pages/Dashboard.tsx): the session check run on mount,
    the loading guard of its render, sign-out, and the account number it
    displays. */
module Dashboard {
  import opened Wrappers
  import opened Text
  import opened Auth

  /** The fields of the provider's user object that the page reads:
      `email` and `user_metadata.phone_number`. */
  datatype User = User(email: Option<string>, phoneNumber: Option<string>)

  datatype State = State(loading: bool, user: Option<User>)

  /** What the component renders. */
  datatype Screen = Spinner | Protected(account: Option<string>)

  /** What the user sees once the router has acted on any navigation. */
  datatype View = Shown(screen: Screen) | Left(path: string)

  /** The page as first rendered, with the session check issued. */
  function Mount(): (step: Step<State>)
    ensures step.state.loading && step.state.user == None
    ensures step.effects == [GetUser]
  {
    Step(State(true, None), [GetUser])
  }

  /** How `getUser` settles: with the user it found, or without one; or it
      fails, which covers a rejected call and an answer without `data`, both
      of which throw before any state is set. */
  datatype Lookup = Answered(fetched: Option<User>) | Failed

  /** `checkAuth` once `getUser` has settled. Without a user, navigate to the
      login page and leave `user` alone; with one, store it; in both cases
      `loading` is lowered. When the lookup fails nothing catches the error:
      the state stays as it was and nothing navigates. */
  function CheckAuth(s: State, lookup: Lookup): (step: Step<State>)
    ensures lookup.Answered? ==> !step.state.loading
    ensures lookup == Answered(None) <==> step.effects == [Navigate(LoginPath)]
    ensures lookup.Failed? ==> step.state == s && step.effects == []
    ensures lookup == Answered(None) ==> step.state.user == s.user
    ensures lookup.Answered? && lookup.fetched.Some? ==> step.state.user == lookup.fetched && step.effects == []
  {
    match lookup
    case Failed => Step(s, [])
    case Answered(None) => Step(s.(loading := false), [Navigate(LoginPath)])
    case Answered(fetched) => Step(s.(user := fetched, loading := false), [])
  }

  /** `handleSignOut`: sign out, and once that has resolved, navigate to the
      login page. A rejected sign-out stops the handler before it navigates. */
  function SignOutEffects(rejected: bool): (effects: seq<Effect>)
    ensures |effects| == if rejected then 1 else 2
    ensures effects[0] == SignOut
    ensures Navigate(LoginPath) in effects <==> !rejected
    ensures !rejected ==> effects[1] == Navigate(LoginPath)
  {
    [SignOut] + (if rejected then [] else [Navigate(LoginPath)])
  }

  /** Signing out never leaves the user on the page with the session still
      open: whatever happens, the provider is asked to end the session and
      that is its only provider call, and the page is left for the login page
      exactly when the sign-out succeeded, never before it was asked for. */
  lemma SignOutBeforeLeaving(rejected: bool)
    ensures ProviderCalls(SignOutEffects(rejected)) == [SignOut]
    ensures LastNavigation(SignOutEffects(rejected)) == if rejected then None else Some(LoginPath)
    ensures forall i :: 0 <= i < |SignOutEffects(rejected)| && SignOutEffects(rejected)[i].Navigate? ==>
              SignOut in SignOutEffects(rejected)[..i]
  {
    var e := SignOutEffects(rejected);
    if !rejected {
      assert e[..1] == [SignOut];
      assert e[..|e| - 1] == [SignOut];
    }
  }

  /** The account shown in the header: the metadata phone number when it is
      truthy, else the email up to its first '@', else nothing. */
  function AccountLabel(user: Option<User>): (name: Option<string>)
    ensures name.Some? ==> user.Some?
    ensures user.Some? && user.value.phoneNumber.Some? && user.value.phoneNumber.value != ""
            ==> name == user.value.phoneNumber
    ensures user.Some? && (user.value.phoneNumber.None? || user.value.phoneNumber.value == "") && user.value.email.None?
            ==> name.None?
  {
    if user.Some? && user.value.phoneNumber.Some? && user.value.phoneNumber.value != "" then user.value.phoneNumber
    else if user.Some? && user.value.email.Some? then Some(BeforeFirst(user.value.email.value, '@'))
    else None
  }

  /** The account line under the title: the country prefix and the label;
      an undefined label renders as nothing. */
  function AccountLine(user: Option<User>): (line: string)
    ensures |line| >= 5 && line[..5] == "+212 "
    ensures line[5..] == if AccountLabel(user).Some? then AccountLabel(user).value else ""
  {
    "+212 " + AccountLabel(user).GetOr("")
  }

  /** Without a usable phone number the label is the part of the email before
      its first '@', or the whole email when it has none. */
  lemma AccountLabelFromEmail(u: User)
    requires u.phoneNumber.None? || u.phoneNumber.value == ""
    requires u.email.Some?
    ensures var name := AccountLabel(Some(u)).value;
      && name == u.email.value[..|name|]
      && '@' !in name
      && (name == u.email.value <==> '@' !in u.email.value)
  {
  }

  /** For an email of the form `local@rest` the label is `local`. */
  lemma AccountLabelOfAddress(local: string, rest: string)
    requires '@' !in local
    ensures AccountLabel(Some(User(Some(local + "@" + rest), None))) == Some(local)
  {
    BeforeFirstOfJoin(local, '@', rest);
  }

  /** The component's own render: only the spinner while `loading`. */
  function Render(s: State): (screen: Screen)
    ensures screen == Spinner <==> s.loading
  {
    if s.loading then Spinner else Protected(AccountLabel(s.user))
  }

  /** The last page navigated to among some effects, if any. */
  function LastNavigation(effects: seq<Effect>): (path: Option<string>)
    ensures path.Some? ==> Navigate(path.value) in effects
    ensures path.None? ==> forall e :: e in effects ==> !e.Navigate?
  {
    if effects == [] then None
    else if effects[|effects| - 1].Navigate? then Some(effects[|effects| - 1].path)
    else LastNavigation(effects[..|effects| - 1])
  }

  /** What is on screen after a step: the page navigated to, if any, else
      the component's render. */
  function Visible(step: Step<State>): View {
    var nav := LastNavigation(step.effects);
    if nav.Some? then Left(nav.value) else Shown(Render(step.state))
  }

  /** The session gate: before the check only the spinner shows; after it,
      without a user the login page shows and no user is stored, with a user
      the account shows with that user's label and nothing navigates, and
      after a failed lookup the spinner stays. */
  lemma SessionGate(lookup: Lookup)
    ensures Visible(Mount()) == Shown(Spinner)
    ensures var step := CheckAuth(Mount().state, lookup);
      && (lookup == Answered(None) ==> Visible(step) == Left(LoginPath) && step.state.user == None)
      && (lookup.Answered? && lookup.fetched.Some? ==>
            Visible(step) == Shown(Protected(AccountLabel(lookup.fetched))))
      && (lookup.Failed? ==> Visible(step) == Shown(Spinner))
  {
  }

  /** Protected content is never on screen without a stored user, while the
      check is pending or after it, whichever way it settles. */
  lemma NoProtectedContentWithoutUser(lookup: Lookup)
    ensures Visible(Mount()).Shown? ==> Visible(Mount()).screen == Spinner
    ensures var step := CheckAuth(Mount().state, lookup);
      Visible(step).Shown? && Visible(step).screen.Protected? ==> step.state.user.Some?
  {
    SessionGate(lookup);
  }

  /** The render guard alone only checks `loading`: after a check that found
      no user the component would render the page with an empty account
      label, and it is the navigation to the login page that keeps this off
      screen. */
  lemma RenderGuardAloneWithoutUser()
    ensures Render(CheckAuth(Mount().state, Answered(None)).state) == Protected(None)
  {
  }
}

=== FILE: decimal.dfy ===
/** Base-10 text of non-negative integers, as `Number.prototype.toString()`
    writes it, and the reading back of such text. */
module Decimal {
  import opened Text

  function DigitChar(d: nat): (c: char)
    requires d < 10
    ensures IsDigit(c)
  {
    ('0' as int + d) as char
  }

  function DigitValue(c: char): (d: nat)
    requires IsDigit(c)
    ensures d < 10 && DigitChar(d) == c
  {
    c as int - '0' as int
  }

  function Pow10(k: nat): (p: nat)
    ensures p >= 1
  {
    if k == 0 then 1 else 10 * Pow10(k - 1)
  }

  /** `n.toString()` for an integer `0 <= n < 10^21` that a JavaScript number
      holds exactly: the shortest decimal numeral, so only zero itself starts
      with '0'. From 10^21 on JavaScript switches to exponent form, and above
      2^53 the number is no longer exact; the pages only ever convert codes
      between 1000 and 9999. */
  function ToDecimal(n: nat): (s: string)
    ensures |s| >= 1 && AllDigits(s)
    ensures s[0] == '0' ==> n == 0
  {
    if n < 10 then [DigitChar(n)] else ToDecimal(n / 10) + [DigitChar(n % 10)]
  }

  /** The value of a numeral, most significant digit first. */
  function ParseDecimal(s: string): nat
    requires AllDigits(s)
  {
    if s == [] then 0 else ParseDecimal(s[..|s| - 1]) * 10 + DigitValue(s[|s| - 1])
  }

  /** Reading back what `ToDecimal` wrote gives the number again. */
  lemma {:induction false} ParseToDecimal(n: nat)
    ensures ParseDecimal(ToDecimal(n)) == n
  {
    if n >= 10 {
      var s := ToDecimal(n);
      assert s[..|s| - 1] == ToDecimal(n / 10);
      ParseToDecimal(n / 10);
    }
  }

  /** Different numbers have different numerals. */
  lemma ToDecimalInjective(a: nat, b: nat)
    requires ToDecimal(a) == ToDecimal(b)
    ensures a == b
  {
    ParseToDecimal(a);
    ParseToDecimal(b);
  }

  /** A numeral that does not start with '0' has a positive value. */
  lemma {:induction false} ParsePositive(s: string)
    requires |s| >= 1 && AllDigits(s) && s[0] != '0'
    ensures ParseDecimal(s) >= Pow10(|s| - 1)
  {
    if |s| > 1 {
      var p := s[..|s| - 1];
      assert p[0] == s[0];
      ParsePositive(p);
    } else {
      assert DigitChar(0) == '0';
    }
  }

  /** A numeral of `k` digits is worth less than 10^k. */
  lemma {:induction false} ParseBelow(s: string)
    requires AllDigits(s)
    ensures ParseDecimal(s) < Pow10(|s|)
  {
    if s != [] {
      ParseBelow(s[..|s| - 1]);
    }
  }

  /** Writing out the value of a numeral without a superfluous leading zero
      gives back the same numeral. */
  lemma {:induction false} ToDecimalParse(s: string)
    requires |s| >= 1 && AllDigits(s)
    requires |s| == 1 || s[0] != '0'
    ensures ToDecimal(ParseDecimal(s)) == s
  {
    if |s| > 1 {
      var p := s[..|s| - 1];
      assert p[0] == s[0];
      ParsePositive(p);
      var n := ParseDecimal(s);
      assert n / 10 == ParseDecimal(p) && n % 10 == DigitValue(s[|s| - 1]);
      ToDecimalParse(p);
      assert s == p + [s[|s| - 1]];
    }
  }

  /** Numbers in [10^k, 10^(k+1)) have exactly k+1 digits. */
  lemma {:induction false} ToDecimalLength(n: nat, k: nat)
    requires Pow10(k) <= n < Pow10(k + 1)
    ensures |ToDecimal(n)| == k + 1
  {
    if k > 0 {
      assert Pow10(k) == 10 * Pow10(k - 1);
      assert Pow10(k + 1) == 10 * Pow10(k);
      ToDecimalLength(n / 10, k - 1);
    }
  }
}

=== FILE: login.dfy ===
/** The sign-in page (pages/Login.tsx): its form state, the field edits and
    the submit handler `handleLogin`, split at its `await` like the
    registration handler. There is no local validation: every submit reaches
    the provider, and every failure shows the same generic message. */
module Login {
  import opened Wrappers
  import opened Text
  import opened Auth

  datatype Form = Form(phone: string, password: string)

  datatype State = State(loading: bool, error: Option<Message>, form: Form)

  /** The phone field holds digits only. */
  predicate Valid(s: State) {
    AllDigits(s.form.phone)
  }

  function Mount(): (s: State)
    ensures Valid(s) && !s.loading && s.error == None
    ensures s.form == Form("", "")
  {
    State(false, None, Form("", ""))
  }

  /** The phone input's `onChange`: the typed value with every non-digit removed. */
  function EditPhone(s: State, raw: string): (t: State)
    ensures AllDigits(t.form.phone)
    ensures t.form.phone == KeepDigits(raw)
    ensures AllDigits(raw) ==> t.form.phone == raw
    ensures t == s.(form := s.form.(phone := t.form.phone))
  {
    assert AllDigits(raw) ==> KeepDigits(raw) == raw by {
      if AllDigits(raw) { KeepDigitsOfDigits(raw); }
    }
    s.(form := s.form.(phone := KeepDigits(raw)))
  }

  /** The password input stores what was typed and changes nothing else. */
  function EditPassword(s: State, value: string): (t: State)
    ensures t.form.password == value
    ensures t == s.(form := t.form) && t.form == s.form.(password := t.form.password)
  {
    s.(form := s.form.(password := value))
  }

  /** The sign-in request: the identity `formatEmail(phone)` and the password. */
  function SignInCall(f: Form, formatEmail: string -> string): (call: Effect)
    ensures call.SignIn? && call.email == formatEmail(f.phone) && call.password == f.password
  {
    SignIn(formatEmail(f.phone), f.password)
  }

  /** `handleLogin` up to the awaited call: clear the error, raise `loading`,
      call the provider. */
  function Begin(s: State, formatEmail: string -> string): (step: Step<State>)
    ensures step.state.loading && step.state.error == None && step.state.form == s.form
    ensures step.effects == [SignInCall(s.form, formatEmail)]
  {
    Step(s.(error := None, loading := true), [SignInCall(s.form, formatEmail)])
  }

  /** The rest of `handleLogin`: navigate on success, show the generic
      `error_login` on any failure, and lower `loading` either way. */
  function Resolve(s: State, outcome: Outcome): (step: Step<State>)
    requires s.loading
    ensures !step.state.loading && step.state.form == s.form
    ensures outcome.Ok? ==> step.state.error == s.error && step.effects == [Navigate(DashboardPath)]
    ensures outcome.Err? ==> step.state.error == Some(ErrorLogin) && step.effects == []
  {
    if outcome.Ok? then Step(s.(loading := false), [Navigate(DashboardPath)])
    else Step(s.(loading := false, error := Some(ErrorLogin)), [])
  }

  /** A click on the submit button: ignored while `loading`. */
  function Press(s: State, formatEmail: string -> string): (step: Step<State>)
    ensures s.loading ==> step == Step(s, [])
  {
    if s.loading then Step(s, []) else Begin(s, formatEmail)
  }

  /** The whole handler as one step behind the button guard. */
  function Submit(s: State, formatEmail: string -> string, outcome: Outcome): (step: Step<State>)
    ensures !s.loading ==> !step.state.loading
    ensures step.state.form == s.form
    ensures ProviderCalls(step.effects) == if s.loading then [] else [SignInCall(s.form, formatEmail)]
  {
    var b := Press(s, formatEmail);
    if b.effects == [] then b
    else
      var e := Resolve(b.state, outcome);
      var effects := b.effects + e.effects;
      assert effects[1..] == e.effects;
      assert ProviderCalls(e.effects) == [] by {
        if e.effects != [] {
          assert e.effects[1..] == [];
        }
      }
      Step(e.state, effects)
  }

  /** No field is checked locally: whatever the phone and password hold, even
      empty, the provider is asked to sign in with them. */
  lemma NoLocalValidation(s: State, formatEmail: string -> string, outcome: Outcome)
    requires !s.loading
    ensures ProviderCalls(Submit(s, formatEmail, outcome).effects)
         == [SignIn(formatEmail(s.form.phone), s.form.password)]
  {
  }

  /** After a submit the error is cleared exactly when the sign-in succeeded,
      and otherwise it is the generic `error_login`; success navigates to the
      dashboard. */
  lemma SubmitErrorIff(s: State, formatEmail: string -> string, outcome: Outcome)
    requires !s.loading
    ensures var step := Submit(s, formatEmail, outcome);
      && (step.state.error == None <==> outcome.Ok?)
      && (outcome.Err? ==> step.state.error == Some(ErrorLogin))
      && (outcome.Ok? <==> Navigate(DashboardPath) in step.effects)
  {
  }

  /** The provider's message never reaches the page: any two failures leave
      the page in the same state with the same effects. */
  lemma ProviderMessageHidden(s: State, formatEmail: string -> string, m1: Option<string>, m2: Option<string>)
    ensures Submit(s, formatEmail, Err(m1)) == Submit(s, formatEmail, Err(m2))
  {
  }

  lemma SubmitKeepsValid(s: State, formatEmail: string -> string, outcome: Outcome, raw: string, value: string)
    requires Valid(s)
    ensures Valid(Submit(s, formatEmail, outcome).state)
    ensures Valid(EditPhone(s, raw)) && Valid(EditPassword(s, value))
  {
  }
}

=== FILE: otp.dfy ===
/** The registration challenge: a four-digit code drawn at random and shown
    on the form (pages/Register.tsx, `generateOtp`). */
module Otp {
  import opened Text
  import opened Decimal

  /** A value of `Math.random()`: a number in [0, 1). */
  type Draw = r: real | 0.0 <= r < 1.0

  /** The drawn number scaled to [1000, 10000) and rounded down, in exact
      real arithmetic. */
  function CodeValue(r: Draw): (n: int)
    ensures 1000 <= n <= 9999
  {
    (1000.0 + r * 9000.0).Floor
  }

  /** Every value in [1000, 9999] is produced by some draw. */
  lemma CodeValueOnto(n: int)
    requires 1000 <= n <= 9999
    ensures var r := (n - 1000) as real / 9000.0; 0.0 <= r < 1.0 && CodeValue(r) == n
  {
  }

  /** The shape of every code the form displays: four digits, no leading zero. */
  predicate IsCode(s: string) {
    |s| == 4 && AllDigits(s) && s[0] != '0'
  }

  /** `generateOtp`: the decimal text of the drawn value. */
  function Generate(r: Draw): (code: string)
    ensures IsCode(code)
    ensures ParseDecimal(code) == CodeValue(r)
  {
    var n := CodeValue(r);
    ToDecimalLength(n, 3);
    ParseToDecimal(n);
    ToDecimal(n)
  }

  /** Every string of code shape is what some draw generates, so the codes
      are exactly the four-digit numerals without a leading zero. */
  lemma GenerateOnto(code: string)
    requires IsCode(code)
    ensures exists r: Draw :: Generate(r) == code
  {
    var n := ParseDecimal(code);
    ParsePositive(code);
    ParseBelow(code);
    CodeValueOnto(n);
    var r: Draw := (n - 1000) as real / 9000.0;
    ToDecimalParse(code);
    assert Generate(r) == code;
  }
}

=== FILE: register.dfy ===
/** The registration page (pages/Register.tsx): its form state, the field
    edits, the code tile, and the submit handler `handleRegister`.

    The handler is modelled in two phases split at its one `await`: `Begin`
    runs from the submit event up to the provider call, `Resolve` runs the
    rest once the call has settled. `Submit` is the handler run as one atomic
    step, behind the `disabled={loading}` guard of the submit button. */
module Register {
  import opened Wrappers
  import opened Text
  import opened Otp
  import opened Validation
  import opened Auth

  datatype Form = Form(username: string, phone: string, password: string, referralCode: string)

  datatype State = State(loading: bool, error: Option<Message>, otp: string, userOtp: string, form: Form)

  /** What the page's own code keeps true of its state: the phone and code
      fields hold digits only and the displayed code is a four-digit code. */
  predicate Valid(s: State) {
    AllDigits(s.form.phone) && AllDigits(s.userOtp) && IsCode(s.otp)
  }

  /** The page after mounting: empty fields, no error, and the mount effect
      has drawn a first code. */
  function Mount(r: Draw): (s: State)
    ensures Valid(s) && !s.loading && s.error == None
    ensures s.userOtp == "" && s.form == Form("", "", "", "")
  {
    State(false, None, Generate(r), "", Form("", "", "", ""))
  }

  /** The text inputs without a filter store what was typed into their own
      field and change nothing else. */
  function EditUsername(s: State, value: string): (t: State)
    ensures t.form.username == value
    ensures t == s.(form := t.form) && t.form == s.form.(username := t.form.username)
  {
    s.(form := s.form.(username := value))
  }

  function EditPassword(s: State, value: string): (t: State)
    ensures t.form.password == value
    ensures t == s.(form := t.form) && t.form == s.form.(password := t.form.password)
  {
    s.(form := s.form.(password := value))
  }

  function EditReferral(s: State, value: string): (t: State)
    ensures t.form.referralCode == value
    ensures t == s.(form := t.form) && t.form == s.form.(referralCode := t.form.referralCode)
  {
    s.(form := s.form.(referralCode := value))
  }

  /** The phone input's `onChange`: the typed value with every non-digit removed. */
  function EditPhone(s: State, raw: string): (t: State)
    ensures AllDigits(t.form.phone)
    ensures t.form.phone == KeepDigits(raw)
    ensures AllDigits(raw) ==> t.form.phone == raw
    ensures t == s.(form := t.form) && t.form == s.form.(phone := t.form.phone)
  {
    assert AllDigits(raw) ==> KeepDigits(raw) == raw by {
      if AllDigits(raw) { KeepDigitsOfDigits(raw); }
    }
    s.(form := s.form.(phone := KeepDigits(raw)))
  }

  /** The code input's `onChange`: the typed value with every non-digit removed. */
  function EditUserOtp(s: State, raw: string): (t: State)
    ensures AllDigits(t.userOtp)
    ensures t.userOtp == KeepDigits(raw)
    ensures AllDigits(raw) ==> t.userOtp == raw
    ensures t == s.(userOtp := t.userOtp)
  {
    assert AllDigits(raw) ==> KeepDigits(raw) == raw by {
      if AllDigits(raw) { KeepDigitsOfDigits(raw); }
    }
    s.(userOtp := KeepDigits(raw))
  }

  /** A click on the code tile draws a new code and touches nothing else. */
  function RefreshCode(s: State, r: Draw): (t: State)
    ensures IsCode(t.otp)
    ensures t == s.(otp := t.otp)
  {
    s.(otp := Generate(r))
  }

  /** The sign-up request for a form: the identity `formatEmail(phone)`, the
      password, and the profile metadata; an empty referral code is sent as null. */
  function SignUpCall(f: Form, formatEmail: string -> string): (call: Effect)
    ensures call.SignUp? && call.email == formatEmail(f.phone) && call.password == f.password
    ensures call.data.username == f.username && call.data.phoneNumber == f.phone
    ensures call.data.referralCode.None? <==> f.referralCode == ""
    ensures call.data.referralCode.Some? ==> call.data.referralCode.value == f.referralCode
  {
    SignUp(formatEmail(f.phone), f.password,
           Metadata(f.username, f.phone, if f.referralCode == "" then None else Some(f.referralCode)))
  }

  /** The error shown after a failed sign-up: the provider's message unless
      it is absent or empty, which JavaScript treats as false. */
  function ProviderError(message: Option<string>): (m: Message)
    ensures m != ErrorGeneral <==> message.Some? && message.value != ""
    ensures m != ErrorGeneral ==> m == ProviderText(message.value)
  {
    if message.Some? && message.value != "" then ProviderText(message.value) else ErrorGeneral
  }

  /** Reference definition of the local checks: the errors of every check
      that fails, in the order the handler tests them. */
  function Failures(f: Form, otp: string, userOtp: string): seq<Message> {
    (if UsernameMissing(f.username) then [ErrorUsername] else [])
    + (if !ValidatePhone(f.phone) then [ErrorPhone] else [])
    + (if PasswordTooShort(f.password) then [ErrorPassword] else [])
    + (if userOtp != otp then [ErrorOtp] else [])
  }

  /** `handleRegister` up to the awaited provider call. The error is cleared
      first; each local check that fails sets its error and returns; only when
      all pass is the provider called, with `loading` raised and the codes
      kept while the call is in flight. */
  function Begin(s: State, formatEmail: string -> string, r: Draw): (step: Step<State>)
    ensures step.effects != [] <==> Failures(s.form, s.otp, s.userOtp) == []
    ensures step.effects != [] ==> step.effects == [SignUpCall(s.form, formatEmail)] && step.state.loading
    ensures step.effects == [] ==> step.state.loading == s.loading
    ensures step.effects == [] ==> step.state.error == Some(Failures(s.form, s.otp, s.userOtp)[0])
    ensures step.effects != [] ==> step.state == s.(loading := true, error := None)
    ensures step.state.form == s.form
  {
    var cleared := s.(error := None);
    if UsernameMissing(s.form.username) then
      Step(cleared.(error := Some(ErrorUsername)), [])
    else if !ValidatePhone(s.form.phone) then
      Step(cleared.(error := Some(ErrorPhone)), [])
    else if PasswordTooShort(s.form.password) then
      Step(cleared.(error := Some(ErrorPassword)), [])
    else if s.userOtp != s.otp then
      Step(cleared.(error := Some(ErrorOtp), otp := Generate(r), userOtp := ""), [])
    else
      Step(cleared.(loading := true), [SignUpCall(s.form, formatEmail)])
  }

  /** The rest of `handleRegister` once the sign-up call has settled: on success
      navigate to the dashboard; on failure show the provider's message and draw
      a new code. Either way `loading` ends false. */
  function Resolve(s: State, outcome: Outcome, r: Draw): (step: Step<State>)
    requires s.loading
    ensures !step.state.loading
    ensures step.state.form == s.form && step.state.userOtp == s.userOtp
    ensures outcome.Ok? ==> step.state.error == s.error && step.state.otp == s.otp
    ensures outcome.Ok? <==> step.effects == [Navigate(DashboardPath)]
    ensures outcome.Err? ==> step.effects == [] && step.state.error == Some(ProviderError(outcome.message))
  {
    match outcome
    case Ok => Step(s.(loading := false), [Navigate(DashboardPath)])
    case Err(message) => Step(s.(loading := false, error := Some(ProviderError(message)), otp := Generate(r)), [])
  }

  /** A click on the submit button: ignored while `loading`, otherwise the
      first phase of the handler. */
  function Press(s: State, formatEmail: string -> string, r: Draw): (step: Step<State>)
    ensures s.loading ==> step == Step(s, [])
  {
    if s.loading then Step(s, []) else Begin(s, formatEmail, r)
  }

  /** The whole handler as one step: the button press, and when a sign-up call
      was made, its settlement with `outcome`. */
  function Submit(s: State, formatEmail: string -> string, outcome: Outcome, r: Draw): (step: Step<State>)
    ensures !s.loading ==> !step.state.loading
    ensures step.state.form == s.form
    ensures ProviderCalls(step.effects)
         == if !s.loading && Failures(s.form, s.otp, s.userOtp) == [] then [SignUpCall(s.form, formatEmail)] else []
  {
    var b := Press(s, formatEmail, r);
    if b.effects == [] then b
    else
      var e := Resolve(b.state, outcome, r);
      var effects := b.effects + e.effects;
      assert effects[1..] == e.effects;
      assert ProviderCalls(e.effects) == [] by {
        if e.effects != [] {
          assert e.effects[1..] == [];
        }
      }
      Step(e.state, effects)
  }

  /** The checks short-circuit in a fixed order: username, phone, password,
      code. A failing check alone decides the error, whatever the later
      fields hold. What happens when all pass is `SubmitProviderCall`. */
  lemma SubmitCheckOrder(s: State, formatEmail: string -> string, outcome: Outcome, r: Draw)
    requires !s.loading
    ensures var step := Submit(s, formatEmail, outcome, r);
      && (UsernameMissing(s.form.username) ==> step.state.error == Some(ErrorUsername))
      && (!UsernameMissing(s.form.username) && !ValidatePhone(s.form.phone) ==> step.state.error == Some(ErrorPhone))
      && (!UsernameMissing(s.form.username) && ValidatePhone(s.form.phone) && PasswordTooShort(s.form.password)
          ==> step.state.error == Some(ErrorPassword))
      && ((!UsernameMissing(s.form.username) && ValidatePhone(s.form.phone) && !PasswordTooShort(s.form.password)
           && s.userOtp != s.otp) ==> step.state.error == Some(ErrorOtp))
  {
  }

  /** On a failed username, phone or password check nothing is sent, `loading`
      stays false, and the error is the only field that changes. */
  lemma SubmitFieldFailureFrame(s: State, formatEmail: string -> string, outcome: Outcome, r: Draw)
    requires !s.loading
    requires Failures(s.form, s.otp, s.userOtp) != [] && Failures(s.form, s.otp, s.userOtp)[0] != ErrorOtp
    ensures Submit(s, formatEmail, outcome, r)
         == Step(s.(error := Some(Failures(s.form, s.otp, s.userOtp)[0])), [])
  {
  }

  /** On a code mismatch nothing is sent, the code is replaced by a fresh one,
      the typed code is cleared, and nothing else changes. */
  lemma SubmitMismatchFrame(s: State, formatEmail: string -> string, outcome: Outcome, r: Draw)
    requires !s.loading
    requires Failures(s.form, s.otp, s.userOtp) == [ErrorOtp]
    ensures Submit(s, formatEmail, outcome, r)
         == Step(s.(error := Some(ErrorOtp), otp := Generate(r), userOtp := ""), [])
  {
  }

  /** The fresh code after a mismatch may equal the old one: some draw
      reproduces any displayed code. */
  lemma MismatchMayRedrawSameCode(s: State, formatEmail: string -> string, outcome: Outcome)
    requires Valid(s) && !s.loading
    requires Failures(s.form, s.otp, s.userOtp) == [ErrorOtp]
    ensures exists r: Draw :: Submit(s, formatEmail, outcome, r).state.otp == s.otp
  {
    GenerateOnto(s.otp);
    var r: Draw :| Generate(r) == s.otp;
    SubmitMismatchFrame(s, formatEmail, outcome, r);
  }

  /** When every check passes the provider gets exactly one request: the
      identity for the phone, the password, and the profile metadata. On
      success the page navigates to the dashboard with no error shown; on
      failure the provider's message (or the general error) is shown and the
      code is redrawn, while the typed code stays. */
  lemma SubmitProviderCall(s: State, formatEmail: string -> string, outcome: Outcome, r: Draw)
    requires !s.loading
    requires Failures(s.form, s.otp, s.userOtp) == []
    ensures var step := Submit(s, formatEmail, outcome, r);
      && step.effects[0] == SignUp(formatEmail(s.form.phone), s.form.password,
                                   Metadata(s.form.username, s.form.phone,
                                            if s.form.referralCode == "" then None else Some(s.form.referralCode)))
      && (outcome.Ok? ==> step == Step(s.(error := None), [step.effects[0], Navigate(DashboardPath)]))
      && (outcome.Err? ==> step == Step(s.(error := Some(ProviderError(outcome.message)), otp := Generate(r)),
                                        [step.effects[0]]))
  {
  }

  /** Field edits and the code tile keep the field invariant. */
  lemma EditsKeepValid(s: State, value: string, r: Draw)
    requires Valid(s)
    ensures Valid(EditUsername(s, value)) && Valid(EditPassword(s, value)) && Valid(EditReferral(s, value))
    ensures Valid(EditPhone(s, value)) && Valid(EditUserOtp(s, value)) && Valid(RefreshCode(s, r))
  {
  }

  lemma SubmitKeepsValid(s: State, formatEmail: string -> string, outcome: Outcome, r: Draw)
    requires Valid(s)
    ensures Valid(Press(s, formatEmail, r).state)
    ensures s.loading ==> Valid(Resolve(s, outcome, r).state)
    ensures Valid(Submit(s, formatEmail, outcome, r).state)
  {
  }

  /** The user's actions on the page, and the settlement of an outstanding
      sign-up call. */
  datatype Event =
    | TypeUsername(value: string)
    | TypePhone(value: string)
    | TypePassword(value: string)
    | TypeReferral(value: string)
    | TypeCode(value: string)
    | ClickCode(draw: Draw)
    | ClickSubmit(draw: Draw)
    | Settle(outcome: Outcome, draw: Draw)

  /** One event. A settlement arrives only while a call is outstanding; one
      arriving at any other time is ignored, as is a click on the disabled
      submit button. Typing and the code tile have no effects and leave
      `loading` alone; any event has at most one effect, a sign-up or the
      navigation to the dashboard. */
  function Apply(s: State, formatEmail: string -> string, ev: Event): (step: Step<State>)
    ensures |step.effects| <= 1
    ensures forall e :: e in step.effects ==> e.SignUp? || e == Navigate(DashboardPath)
    ensures !ev.ClickSubmit? && !ev.Settle? ==> step.effects == [] && step.state.loading == s.loading
    ensures (ev.ClickSubmit? && s.loading) || (ev.Settle? && !s.loading) ==> step == Step(s, [])
  {
    match ev
    case TypeUsername(v) => Step(EditUsername(s, v), [])
    case TypePhone(v) => Step(EditPhone(s, v), [])
    case TypePassword(v) => Step(EditPassword(s, v), [])
    case TypeReferral(v) => Step(EditReferral(s, v), [])
    case TypeCode(v) => Step(EditUserOtp(s, v), [])
    case ClickCode(r) => Step(RefreshCode(s, r), [])
    case ClickSubmit(r) => Press(s, formatEmail, r)
    case Settle(o, r) => if s.loading then Resolve(s, o, r) else Step(s, [])
  }

  /** A session of events, applied in order, with all their effects: at most
      one per event, each a sign-up or the navigation to the dashboard. */
  function Run(s: State, formatEmail: string -> string, events: seq<Event>): (step: Step<State>)
    ensures |step.effects| <= |events|
    ensures forall e :: e in step.effects ==> e.SignUp? || e == Navigate(DashboardPath)
    decreases |events|
  {
    if events == [] then Step(s, [])
    else
      var first := Apply(s, formatEmail, events[0]);
      var rest := Run(first.state, formatEmail, events[1..]);
      Step(rest.state, first.effects + rest.effects)
  }

  /** The number of settlements in a session that found a call outstanding. */
  function Settled(s: State, formatEmail: string -> string, events: seq<Event>): nat
    decreases |events|
  {
    if events == [] then 0
    else
      (if events[0].Settle? && s.loading then 1 else 0)
      + Settled(Apply(s, formatEmail, events[0]).state, formatEmail, events[1..])
  }

  /** One event makes a provider call exactly when it raises `loading`, and
      lowers `loading` exactly when it settles the outstanding call. */
  lemma ApplyCallsIffRaised(s: State, formatEmail: string -> string, ev: Event)
    ensures var t := Apply(s, formatEmail, ev).state;
      && |ProviderCalls(Apply(s, formatEmail, ev).effects)| == (if !s.loading && t.loading then 1 else 0)
      && (s.loading && !t.loading <==> ev.Settle? && s.loading)
  {
  }

  /** The `disabled={loading}` guard keeps at most one sign-up in flight:
      over any session, the calls made, plus one if a call was outstanding at
      the start, equal the settlements, plus one if a call is outstanding at
      the end. */
  lemma {:induction false} SingleFlight(s: State, formatEmail: string -> string, events: seq<Event>)
    ensures var run := Run(s, formatEmail, events);
      |ProviderCalls(run.effects)| + (if s.loading then 1 else 0)
      == Settled(s, formatEmail, events) + (if run.state.loading then 1 else 0)
    decreases |events|
  {
    if events != [] {
      var first := Apply(s, formatEmail, events[0]);
      var rest := Run(first.state, formatEmail, events[1..]);
      ApplyCallsIffRaised(s, formatEmail, events[0]);
      SingleFlight(first.state, formatEmail, events[1..]);
      ProviderCallsAppend(first.effects, rest.effects);
    }
  }

  /** No event leads out of the field invariant. */
  lemma ApplyKeepsValid(s: State, formatEmail: string -> string, ev: Event)
    requires Valid(s)
    ensures Valid(Apply(s, formatEmail, ev).state)
  {
    match ev {
      case ClickSubmit(r) => SubmitKeepsValid(s, formatEmail, Ok, r);
      case Settle(o, r) => SubmitKeepsValid(s, formatEmail, o, r);
      case ClickCode(r) => EditsKeepValid(s, "", r);
      case _ => EditsKeepValid(s, ev.value, 0.0);
    }
  }

  /** No session leads out of the field invariant. */
  lemma {:induction false} RunKeepsValid(s: State, formatEmail: string -> string, events: seq<Event>)
    requires Valid(s)
    ensures Valid(Run(s, formatEmail, events).state)
    decreases |events|
  {
    if events != [] {
      ApplyKeepsValid(s, formatEmail, events[0]);
      RunKeepsValid(Apply(s, formatEmail, events[0]).state, formatEmail, events[1..]);
    }
  }
}

=== FILE: text.dfy ===
/** String helpers with the semantics of the JavaScript built-ins the forms use:
    the `\D` digit filter, `String.prototype.trim`, `.length` in UTF-16 code
    units and `split(sep)[0]`. */
module Text {

  /** `\d` in a regular expression without the `u` flag: the ASCII digits only. */
  predicate IsDigit(c: char) {
    '0' <= c <= '9'
  }

  predicate AllDigits(s: string) {
    forall i :: 0 <= i < |s| ==> IsDigit(s[i])
  }

  /** The input filter of the phone and code fields: every non-digit
      character is dropped, the digits keep their order. */
  function KeepDigits(s: string): (r: string)
    ensures AllDigits(r)
    ensures |r| <= |s|
    ensures multiset(r) <= multiset(s)
  {
    if s == [] then []
    else
      assert s == [s[0]] + s[1..];
      if IsDigit(s[0]) then [s[0]] + KeepDigits(s[1..]) else KeepDigits(s[1..])
  }

  /** A string that already holds only digits passes through the filter unchanged. */
  lemma {:induction false} KeepDigitsOfDigits(s: string)
    requires AllDigits(s)
    ensures KeepDigits(s) == s
  {
    if s != [] {
      assert AllDigits(s[1..]) by {
        forall i | 0 <= i < |s[1..]| ensures IsDigit(s[1..][i]) {
          assert s[1..][i] == s[i + 1];
        }
      }
      KeepDigitsOfDigits(s[1..]);
    }
  }

  /** Filtering twice is filtering once. */
  lemma KeepDigitsIdempotent(s: string)
    ensures KeepDigits(KeepDigits(s)) == KeepDigits(s)
  {
    KeepDigitsOfDigits(KeepDigits(s));
  }

  /** The filter works character by character: filtering a concatenation is
      the concatenation of the filtered parts. */
  lemma {:induction false} KeepDigitsAppend(a: string, b: string)
    ensures KeepDigits(a + b) == KeepDigits(a) + KeepDigits(b)
  {
    if a != [] {
      assert (a + b)[1..] == a[1..] + b;
      KeepDigitsAppend(a[1..], b);
    } else {
      assert a + b == b;
    }
  }

  /** Exactly the digits survive: every digit occurs in the result as often as
      in the input, and no other character occurs at all. */
  lemma {:induction false} KeepDigitsCounts(s: string, c: char)
    ensures multiset(KeepDigits(s))[c] == if IsDigit(c) then multiset(s)[c] else 0
  {
    if s != [] {
      assert s == [s[0]] + s[1..];
      assert multiset(s) == multiset([s[0]]) + multiset(s[1..]);
      KeepDigitsCounts(s[1..], c);
    }
  }

  /** WhiteSpace and LineTerminator code points of ECMAScript, the set that
      `String.prototype.trim` removes. */
  predicate IsJsSpace(c: char) {
    || c == '\t' || c == '\n' || c == '\U{000B}' || c == '\U{000C}' || c == '\r'
    || c == ' ' || c == '\U{00A0}' || c == '\U{1680}'
    || ('\U{2000}' <= c <= '\U{200A}')
    || c == '\U{2028}' || c == '\U{2029}' || c == '\U{202F}' || c == '\U{205F}'
    || c == '\U{3000}' || c == '\U{FEFF}'
  }

  predicate AllSpace(s: string) {
    forall i :: 0 <= i < |s| ==> IsJsSpace(s[i])
  }

  /** Leading white space removed: the result is a suffix of the input that
      does not start with white space, and what was cut off is all white space. */
  function TrimStart(s: string): (r: string)
    ensures |r| <= |s| && r == s[|s| - |r|..]
    ensures r == [] || !IsJsSpace(r[0])
    ensures AllSpace(s[..|s| - |r|])
  {
    if s != [] && IsJsSpace(s[0]) then TrimStart(s[1..]) else s
  }

  /** Trailing white space removed: the result is a prefix of the input that
      does not end with white space, and what was cut off is all white space. */
  function TrimEnd(s: string): (r: string)
    ensures |r| <= |s| && r == s[..|r|]
    ensures r == [] || !IsJsSpace(r[|r| - 1])
    ensures AllSpace(s[|r|..])
  {
    if s != [] && IsJsSpace(s[|s| - 1]) then TrimEnd(s[..|s| - 1]) else s
  }

  /** Neither starts nor ends with white space. */
  predicate Trimmed(r: string) {
    r == [] || (!IsJsSpace(r[0]) && !IsJsSpace(r[|r| - 1]))
  }

  /** `String.prototype.trim`: what is left neither starts nor ends with
      white space, and it is empty exactly when the input is all white space. */
  function Trim(s: string): (r: string)
    ensures |r| <= |s|
    ensures Trimmed(r)
    ensures r == [] <==> AllSpace(s)
  {
    TrimmedOfParts(s, TrimStart(s), TrimEnd(TrimStart(s)));
    TrimEnd(TrimStart(s))
  }

  /** Cutting white space off the front of `s`, giving `t`, and then off the
      back of `t`, giving `r`, leaves text that neither starts nor ends with
      white space, and leaves nothing exactly when `s` is all white space. */
  lemma TrimmedOfParts(s: string, t: string, r: string)
    requires |t| <= |s| && t == s[|s| - |t|..] && AllSpace(s[..|s| - |t|])
    requires t == [] || !IsJsSpace(t[0])
    requires |r| <= |t| && r == t[..|r|] && AllSpace(t[|r|..])
    requires r == [] || !IsJsSpace(r[|r| - 1])
    ensures |r| <= |s| && Trimmed(r)
    ensures r == [] <==> AllSpace(s)
  {
    if r != [] {
      assert r[0] == t[0];
      assert t[0] == s[|s| - |t|];
    } else if t == [] {
      assert s[..|s| - |t|] == s;
    }
  }

  /** A suffix after a white-space prefix that does not itself start with
      white space is what `TrimStart` leaves. */
  lemma {:induction false} TrimStartUnique(s: string, i: nat)
    requires i <= |s| && AllSpace(s[..i])
    requires i == |s| || !IsJsSpace(s[i])
    ensures TrimStart(s) == s[i..]
    decreases i
  {
    if i > 0 {
      assert s[..i][0] == s[0];
      var q := s[1..][..i - 1];
      assert AllSpace(q) by {
        forall k | 0 <= k < |q| ensures IsJsSpace(q[k]) {
          assert q[k] == s[..i][k + 1];
        }
      }
      TrimStartUnique(s[1..], i - 1);
      assert s[1..][i - 1..] == s[i..];
    }
  }

  /** A prefix before a white-space suffix that does not itself end with
      white space is what `TrimEnd` leaves. */
  lemma {:induction false} TrimEndUnique(s: string, j: nat)
    requires j <= |s| && AllSpace(s[j..])
    requires j == 0 || !IsJsSpace(s[j - 1])
    ensures TrimEnd(s) == s[..j]
    decreases |s| - j
  {
    if j < |s| {
      var p := s[..|s| - 1];
      assert s[j..][|s| - 1 - j] == s[|s| - 1];
      var q := p[j..];
      assert AllSpace(q) by {
        forall k | 0 <= k < |q| ensures IsJsSpace(q[k]) {
          assert q[k] == s[j..][k];
        }
      }
      assert j == 0 || p[j - 1] == s[j - 1];
      TrimEndUnique(p, j);
      assert p[..j] == s[..j];
    } else {
      assert s[..j] == s;
    }
  }

  /** The three properties of a trimmed string determine it: `trim` returns
      the part of the input between its leading and trailing white space. */
  lemma TrimUnique(s: string, i: nat, j: nat)
    requires i <= j <= |s|
    requires AllSpace(s[..i]) && AllSpace(s[j..])
    requires i < j ==> !IsJsSpace(s[i]) && !IsJsSpace(s[j - 1])
    requires i == j ==> AllSpace(s)
    ensures Trim(s) == s[i..j]
  {
    if i < j {
      var t := s[i..];
      assert TrimStart(s) == t by {
        TrimStartUnique(s, i);
      }
      assert TrimEnd(t) == s[i..j] by {
        assert t[j - i..] == s[j..];
        assert t[j - i - 1] == s[j - 1];
        TrimEndUnique(t, j - i);
        assert t[..j - i] == s[i..j];
      }
    } else {
      assert Trim(s) == [] && s[i..j] == [];
    }
  }

  /** Number of UTF-16 code units, which is what JavaScript's `.length` counts:
      a character outside the Basic Multilingual Plane takes two. */
  function Utf16Length(s: string): (n: nat)
    ensures |s| <= n <= 2 * |s|
  {
    if s == [] then 0
    else (if s[0] as int >= 0x1_0000 then 2 else 1) + Utf16Length(s[1..])
  }

  /** One character is one code unit, or two outside the Basic Multilingual Plane. */
  lemma Utf16LengthOfChar(c: char)
    ensures Utf16Length([c]) == if c as int >= 0x1_0000 then 2 else 1
  {
    assert [c][1..] == [];
  }

  /** `.length` adds up over concatenation; with `Utf16LengthOfChar` this
      determines the count of every string. */
  lemma {:induction false} Utf16LengthAppend(a: string, b: string)
    ensures Utf16Length(a + b) == Utf16Length(a) + Utf16Length(b)
  {
    if a != [] {
      assert (a + b)[0] == a[0] && (a + b)[1..] == a[1..] + b;
      Utf16LengthAppend(a[1..], b);
    } else {
      assert a + b == b;
    }
  }

  /** For text inside the Basic Multilingual Plane, `.length` is the number of characters. */
  lemma {:induction false} Utf16LengthOfBmp(s: string)
    requires forall i :: 0 <= i < |s| ==> s[i] as int < 0x1_0000
    ensures Utf16Length(s) == |s|
  {
    if s != [] {
      assert forall i :: 0 <= i < |s[1..]| ==> s[1..][i] == s[i + 1];
      Utf16LengthOfBmp(s[1..]);
    }
  }

  /** `s.split(sep)[0]`: the part of `s` before the first `sep`, or all of `s`
      when `sep` does not occur. */
  function BeforeFirst(s: string, sep: char): (r: string)
    ensures |r| <= |s| && r == s[..|r|]
    ensures sep !in r
    ensures |r| == |s| || s[|r|] == sep
  {
    if s == [] || s[0] == sep then []
    else [s[0]] + BeforeFirst(s[1..], sep)
  }

  /** The three properties of `BeforeFirst` determine its result. */
  lemma BeforeFirstUnique(s: string, sep: char, p: string)
    requires |p| <= |s| && p == s[..|p|]
    requires sep !in p
    requires |p| == |s| || s[|p|] == sep
    ensures BeforeFirst(s, sep) == p
  {
  }

  /** Splitting `local + sep + rest` at its first separator gives back `local`. */
  lemma BeforeFirstOfJoin(local: string, sep: char, rest: string)
    requires sep !in local
    ensures BeforeFirst(local + [sep] + rest, sep) == local
  {
    var s := local + [sep] + rest;
    assert s[..|local|] == local;
    BeforeFirstUnique(s, sep, local);
  }
}

=== FILE: validation.dfy ===
/** The field checks of the registration form (pages/Register.tsx):
    `validatePhone`, the trimmed-username test and the password length test. */
module Validation {
  import opened Text

  /** One position of an anchored regular expression built from single
      character classes. */
  datatype CharClass = OneOf(chars: set<char>) | AnyDigit

  predicate InClass(c: char, k: CharClass) {
    if k.OneOf? then c in k.chars else IsDigit(c)
  }

  /** `^k0 k1 ... kn$`: the input is matched one class per character, left to right. */
  function MatchAll(pattern: seq<CharClass>, s: string): bool {
    if pattern == [] then s == []
    else s != [] && InClass(s[0], pattern[0]) && MatchAll(pattern[1..], s[1..])
  }

  /** Position-wise reading of an anchored match. */
  lemma {:induction false} MatchAllIff(pattern: seq<CharClass>, s: string)
    ensures MatchAll(pattern, s) <==> |s| == |pattern| && forall i :: 0 <= i < |s| ==> InClass(s[i], pattern[i])
  {
    if pattern != [] && s != [] {
      MatchAllIff(pattern[1..], s[1..]);
      if |s| == |pattern| && forall i :: 0 <= i < |s| ==> InClass(s[i], pattern[i]) {
        assert forall i :: 0 <= i < |s[1..]| ==> InClass(s[1..][i], pattern[1..][i]) by {
          forall i | 0 <= i < |s[1..]| ensures InClass(s[1..][i], pattern[1..][i]) {
            assert s[1..][i] == s[i + 1] && pattern[1..][i] == pattern[i + 1];
          }
        }
      }
    }
  }

  /** `/^[67]\d{8}$/` */
  const PhonePattern: seq<CharClass> := [OneOf({'6', '7'}), AnyDigit, AnyDigit, AnyDigit, AnyDigit, AnyDigit, AnyDigit, AnyDigit, AnyDigit]

  /** `validatePhone`: nine characters, the first 6 or 7 and the other eight
      ASCII digits. */
  function ValidatePhone(p: string): (ok: bool)
    ensures ok <==> |p| == 9 && (p[0] == '6' || p[0] == '7') && AllDigits(p[1..])
  {
    PhonePatternIff(p);
    MatchAll(PhonePattern, p)
  }

  /** The phone pattern, read position by position. */
  lemma PhonePatternIff(p: string)
    ensures MatchAll(PhonePattern, p) <==> |p| == 9 && (p[0] == '6' || p[0] == '7') && AllDigits(p[1..])
  {
    MatchAllIff(PhonePattern, p);
    assert forall i :: 1 <= i < |PhonePattern| ==> PhonePattern[i] == AnyDigit;
    LeadThenDigits(PhonePattern, p);
  }

  /** A nine-class pattern of `[67]` followed by eight `\d`, read position by
      position, accepts the nine-character strings starting with 6 or 7 whose
      other characters are digits. */
  lemma LeadThenDigits(pattern: seq<CharClass>, p: string)
    requires |pattern| == 9 && pattern[0] == OneOf({'6', '7'})
    requires forall i :: 1 <= i < |pattern| ==> pattern[i] == AnyDigit
    ensures (|p| == |pattern| && forall i :: 0 <= i < |p| ==> InClass(p[i], pattern[i]))
        <==> |p| == 9 && (p[0] == '6' || p[0] == '7') && AllDigits(p[1..])
  {
    if |p| == 9 && (p[0] == '6' || p[0] == '7') && AllDigits(p[1..]) {
      forall i | 0 <= i < |p| ensures InClass(p[i], pattern[i]) {
        if i > 0 {
          assert p[1..][i - 1] == p[i];
        }
      }
    }
    if |p| == |pattern| && forall i :: 0 <= i < |p| ==> InClass(p[i], pattern[i]) {
      var q := p[1..];
      forall i | 0 <= i < |q| ensures IsDigit(q[i]) {
        assert q[i] == p[i + 1] && InClass(p[i + 1], pattern[i + 1]);
      }
      assert InClass(p[0], pattern[0]);
    }
  }

  /** An accepted phone number consists of digits only. */
  lemma ValidPhoneIsDigits(p: string)
    requires ValidatePhone(p)
    ensures |p| == 9 && AllDigits(p)
  {
    forall i | 0 <= i < |p| ensures IsDigit(p[i]) {
      if i > 0 {
        assert p[1..][i - 1] == p[i];
      }
    }
  }

  /** Boundary cases that are accepted. */
  lemma PhoneAccepted()
    ensures ValidatePhone("612345678") && ValidatePhone("799999999")
  {
    var a, b := "612345678", "799999999";
    assert AllDigits(a[1..]) && AllDigits(b[1..]);
  }

  /** Boundary cases that are rejected: a leading 5, eight digits, ten digits. */
  lemma PhoneRejected()
    ensures !ValidatePhone("512345678") && !ValidatePhone("61234567") && !ValidatePhone("6123456789")
  {
  }

  /** The username check: it fails when the trimmed username is the empty
      string, that is, exactly when the username is white space only. */
  function UsernameMissing(u: string): (missing: bool)
    ensures missing <==> AllSpace(u)
  {
    Trim(u) == []
  }

  /** The password check: it fails below eight UTF-16 code units. Eight
      characters always pass and fewer than four never do; within the Basic
      Multilingual Plane the test is exactly "fewer than 8 characters". */
  function PasswordTooShort(pw: string): (short: bool)
    ensures |pw| >= 8 ==> !short
    ensures |pw| < 4 ==> short
    ensures (forall i :: 0 <= i < |pw| ==> pw[i] as int < 0x1_0000) ==> (short <==> |pw| < 8)
  {
    assert (forall i :: 0 <= i < |pw| ==> pw[i] as int < 0x1_0000) ==> Utf16Length(pw) == |pw| by {
      if forall i :: 0 <= i < |pw| ==> pw[i] as int < 0x1_0000 {
        Utf16LengthOfBmp(pw);
      }
    }
    Utf16Length(pw) < 8
  }

  /** Outside the Basic Multilingual Plane the check counts code units, not
      characters: four emoji pass, three emoji and a letter do not. */
  lemma PasswordAstral()
    ensures !PasswordTooShort("\U{1F600}\U{1F600}\U{1F600}\U{1F600}")
    ensures PasswordTooShort("\U{1F600}\U{1F600}\U{1F600}a")
  {
    var e := "\U{1F600}";
    Utf16LengthOfChar('\U{1F600}');
    Utf16LengthOfChar('a');
    Utf16LengthAppend(e, e);
    Utf16LengthAppend(e + e, e + e);
    Utf16LengthAppend(e, "a");
    Utf16LengthAppend(e + e, e + "a");
    assert "\U{1F600}\U{1F600}\U{1F600}\U{1F600}" == (e + e) + (e + e);
    assert "\U{1F600}\U{1F600}\U{1F600}a" == (e + e) + (e + "a");
  }
}

=== FILE: wrappers.dfy ===
/** The optional-value datatype shared by the model: JavaScript's `null` /
    `undefined` become `None`. */
module Wrappers {

  datatype Option<+T> = None | Some(value: T) {

    /** `value ?? fallback` */
    function GetOr(fallback: T): T {
      match this
      case Some(v) => v
      case None => fallback
    }
  }
}
